=== FILE: README.md ===
# Picty store, modelled in Dafny

A model of the central Vuex store of Picty, a desktop image viewer: the root
store (`src/store/index.js`), which switches between the directory explorer
and the full-screen viewer, routes file-open requests, drives the window's
full-screen mode, migrates bookmarks into ratings and chooses which state is
persisted; and the settings module (`src/store/settings.js`), which holds the
user's preferences and decides whether a file may be viewed from its extension.

Each action is a pure function from the state (and its inputs) to a *trace*:
the ordered list of what it does, each step either a `Commit` of a mutation or
a `Perform` of a call on a collaborator the store cannot see (the explorer and
viewer modules, the router, the browser window, the document). The state after
an action is `Root.Replay(s, trace)`, the commits replayed in order. Because
commits and calls sit in one list, orderings such as "the viewer is told to
load before `viewing` flips" are stated directly.

Files, one module each:

- `ascii.dfy` (`Ascii`): upper-casing over ASCII letters.
- `posix_path.dfy` (`PosixPath`): Node's `path.extname` for POSIX paths.
  Trailing slashes are ignored and only the last segment counts. The
  extension runs from that segment's last dot to its end. There is none when
  the segment has no dot, when its last dot is its first character (`.png`),
  or when the segment is `..`.
- `settings.dfy` (`Settings`): the settings state, its defaults, its five
  setters and `IsAvailableFile`.
- `root.dfy` (`Root`): the root state with the bookmark, rating and settings
  slices it uses, the mutations, the collaborator calls (`Effect`), and replay.
- `actions.dfy` (`Actions`): every root action and the `titleBar` getter.
- `persistence.dfy` (`Persistence`): the initial state and the projection onto
  the persisted paths.

Inputs: the platform (`Env.isDarwin`), the product name and the home
directory (`Env`); the file probe `File.get` as a function argument `probe`
of `Open`; the viewer module's `loading` flag and the router's current route
name as arguments of `DismissViewer`.

Two points of the code that are easy to misread:

- `showViewer` never commits the store's `fullScreen` flag. `enterFullScreen`
  only calls the window. So `ShowViewer` leaves `fullScreen` as it was, and
  `TitleBarFollowsFlag` shows the title bar does not move.
- `open` on a directory commits nothing itself: it dispatches the explorer's
  `changeDirectory` and calls the router. The root `setDirectory` mutation has
  no caller in the root store.

Dispatches into the `local` modules (`local/explorer/changeDirectory`,
`local/viewer/loadFiles`, `local/explorer/initialize`) are effects in the
trace, and replay treats every effect as changing no state. So "the state
afterwards" in the contracts of `Open`, `ShowViewer` and `Initialize` means
the root store's own commits only; whatever those modules commit, possibly
`setDirectory` among it, is outside the model.

## Model

| member | source | states |
|---|---|---|
| PosixPath.ExtnameOfComposed | src/store/settings.js:19 | for any path `dir/stem.ext` with trailing slashes, where `ext` has no dot, Node's extension is exactly `.ext` (only the last dot counts; a trailing dot gives `.`) |
| PosixPath.ExtnameUpper | src/store/settings.js:19 | taking the extension and upper-casing commute, so upper-casing after `extname` judges the same text as upper-casing the path |
| PosixPath.ExtnameShape | src/store/settings.js:19 | an extension is either empty or a dot followed by text that holds no further dot and no slash |
| PosixPath.ExtnameOfName | src/store/settings.js:19 | a bare file name `stem.ext` (dot-free `ext`, stem other than `.` when `ext` is empty) has the extension `.ext` |
| PosixPath.ExtnameNoDot | src/store/settings.js:19-22 | a last segment without a dot, under any directory, has no extension |
| PosixPath.ExtnameLeadingDotOnly | src/store/settings.js:19-22 | a last segment whose only dot is its first character (`.png`) has no extension |
| PosixPath.ExtnameDotDot | src/store/settings.js:19-22 | the segment `..` has no extension |
| Ascii.ToUpperFixes | src/store/settings.js:19 | an upper-cased string has no lower-case letter left, and upper-casing changes a string exactly when it holds one |
| Settings.Commit | src/store/settings.js:27-43 | each of the five setters writes its payload into its own field, wholesale, and every other field reads as before |
| Settings.SettersOverwrite | src/store/settings.js:27-43 | a setter is a no-op exactly when its field already holds the payload; a second write to the same field replaces the first; setters on different fields commute |
| Settings.AvailableIffListed | src/store/settings.js:18-23 | a file is available if and only if it has an extension and the upper-cased text after the dot is an entry of `extensions` |
| Settings.NoExtensionNotAvailable | src/store/settings.js:20-22 | whatever the list, a path without an extension is refused |
| Settings.CaseInsensitive | src/store/settings.js:19 | two paths that upper-case alike get the same answer |
| Settings.LastDotDecides | src/store/settings.js:19-23 | for `dir/stem.ext` only the text after the last dot decides: available if and only if its upper-cased form is listed |
| Settings.ExtensionCaseIgnored | src/store/settings.js:19-23 | `stem.ext` and `stem.EXT`, or any two spellings of the extension that upper-case alike, get the same answer for every list |
| Settings.ListNotNormalised | src/store/settings.js:40-42 | the list is used as given: an empty list refuses every path, and an entry with a lower-case letter never matches, so adding one changes no answer |
| Settings.AvailableByExtension | src/store/settings.js:18-23 | a path whose extension is `.ext` is available if and only if `ext`, upper-cased, is an entry of the list |
| Settings.NameDecides | src/store/settings.js:18-23 | for a bare file name `stem.ext` the answer is whether the upper-cased text after the last dot is listed |
| Settings.PngJpgExamples | src/store/settings.js:18-23 | with the list `PNG`, `JPG` and any dot-free file name `x`: `x.png` and `x.PNG` are available, `x.gif` is refused, `x.gif.png` is available |
| Settings.NoExtensionExamples | src/store/settings.js:20-22 | for every list, a dot-free name `x` and a name `.ext` whose only dot leads it are refused |
| Settings.DefaultsAcceptImages | src/store/settings.js:3-15 | the four default flags are off; every default extension is upper-case, and `x.e` is accepted for every non-empty file name `x` holding no `/` and no `.` and every letter-case variant of a default extension `e` |
| Root.Apply | src/store/index.js:116-132 | each mutation writes its payload into its own slot and every other slot keeps its value: `setRating` upserts one path, leaving every other path's presence and rating alone; a settings setter changes the settings as `Settings.Commit` states; so the title, message, full-screen and viewing mutations leave the persisted slices unchanged and the other mutations leave those four fields unchanged |
| Root.MutationsOverwrite | src/store/index.js:116-132 | every mutation replaces its slot: a later write to the same slot (for `setRating`, the same path) erases the earlier one, and repeating a write changes nothing |
| Actions.ChangeRoute | src/store/index.js:98-100 | hands the route to the router exactly once and does nothing else: a single call, no commit |
| Actions.Focus | src/store/index.js:80-88 | requests exactly one deferred focus on the selector and does nothing else: a single call, no commit |
| Actions.Select | src/store/index.js:89-97 | requests exactly one deferred text selection on the selector and does nothing else: a single call, no commit |
| Actions.EnterFullScreen | src/store/index.js:70-74 | makes the window full-screen, then hides the menu bar, and does nothing else; the store's `fullScreen` flag is not committed |
| Actions.LeaveFullScreen | src/store/index.js:75-79 | takes the window out of full-screen, then shows the menu bar, and does nothing else; no commit |
| Actions.RatingCommits | src/store/index.js:110-112 | the loop over the bookmarks makes one `setRating` commit with rating 1 per bookmark, in bookmark order, and nothing else |
| Actions.ReplayRatings | src/store/index.js:110-112 | replaying those commits rates every bookmark 1 and leaves every other rated path as it was, and nothing but the ratings changes |
| Actions.Migrate | src/store/index.js:108-114 | only commits; afterwards every bookmark is rated 1 over its old rating, other ratings are as before, the bookmarks are empty, and nothing else changes |
| Actions.MigrateRatesBookmarks | src/store/index.js:108-114 | key by key: a bookmarked path ends rated 1; any other path keeps its rating or its absence; bookmarks end empty; no other field moves |
| Actions.MigrateIdempotent | src/store/index.js:108-114 | migrating the migrated state commits only the emptying of the empty bookmarks and changes nothing |
| Actions.MigrateExample | src/store/index.js:108-114 | bookmarks `a.png`, `b.png` with no ratings become ratings `a.png: 1`, `b.png: 1` and no bookmarks |
| Actions.Initialize | src/store/index.js:35-38 | the migration's commits come first and the explorer's initialisation last; the state afterwards is the migrated one |
| Actions.InitializeAgain | src/store/index.js:35-38 | initialising an initialised store only empties the empty bookmarks and re-initialises the explorer |
| Actions.OpenDirectory | src/store/index.js:47-50 | exactly two calls: the explorer is told to change directory, then the router goes to the explorer screen; no other call and nothing is committed |
| Actions.ShowViewer | src/store/index.js:51-57 | the load is dispatched first, `viewing` flips second; the root store's own commits change only `viewing` (the store's `fullScreen` flag stays as it was); when the full-screen preference is on the rest of the trace is exactly the window switch to full-screen and the menu-bar hide, and otherwise nothing follows the commit |
| Actions.Open | src/store/index.js:39-46 | exactly one path that the probe reports as a directory: the explorer changes to the probe's path, the router goes to the explorer, and the state is unchanged; otherwise the trace is exactly that of `showViewer` on the whole list, so the viewer loads it in order, `viewing` becomes true, the window goes full-screen exactly when the preference asks, and no directory change or navigation happens |
| Actions.OpenIgnoresExtensions | src/store/index.js:39-46 | what `open` does never depends on the accepted extensions |
| Actions.DismissViewer | src/store/index.js:58-69 | while loading, nothing happens; otherwise only `viewing` drops to false; when the preference is on or the platform is not macOS the trace opens with exactly the window leaving full-screen and the menu bar being shown, and otherwise nothing precedes the commit; the explorer table focus follows the commit exactly when the route is the explorer, and otherwise nothing does |
| Actions.DismissSteps | src/store/index.js:58-69 | for each of the four combinations of leaving full-screen and focusing, the dismissal trace is exactly the window switch (if any), the one `viewing := false` commit, then the focus request (if any) |
| Actions.ChangeTitle | src/store/index.js:101-104 | the document title is set, then `setTitle` is committed with that same value (always, even when `title` already holds it); the product name is used when no title is given |
| Actions.ShowMessage | src/store/index.js:105-107 | only the message changes, to the given value |
| Actions.ShowMessageLastWins | src/store/index.js:120-122 | two messages in a row leave only the second |
| Actions.TitleBarFollowsFlag | src/store/index.js:30-32 | the title bar shows exactly on macOS while the store's `fullScreen` flag is off; showing or dismissing the viewer never changes it |
| Actions.ShowThenDismiss | src/store/index.js:51-69 | showing then dismissing the viewer (not loading) restores every field but `viewing`, which ends false, and a window the viewer made full-screen leaves full-screen again |
| Persistence.RehydrateRestores | src/store/index.js:139-147 | saving then restoring keeps `directory`, bookmarks, ratings and settings, and resets title, message, `fullScreen` and `viewing` to their start-up values |
| Persistence.PersistRoundTrip | src/store/index.js:139-147 | restoring then saving gives back the saved record |
| Persistence.PersistSeesFourSlices | src/store/index.js:139-147 | two states save the same record if and only if they agree on the four persisted slices |
| Persistence.TransientNotPersisted | src/store/index.js:117-128 | the title, message, full-screen and viewing mutations never change what is saved |
| Persistence.RestoredStartsBrowsing | src/store/index.js:22-28 | a restored store starts outside the viewer, windowed, with no message; it equals a fresh store exactly when the saved record holds the start-up values |
| Persistence.ViewActionsNotPersisted | src/store/index.js:51-107 | showing or dismissing the viewer, changing the title and showing a message never change what is saved |

## Left out

- The Electron calls on the window (`setFullScreen`, `setMenuBarVisibility`) are effects in the trace. The home directory and the product name from `package.json` are inputs (`Env`). None of these foreign calls runs.
- `focus` and `select` use `setTimeout` and the DOM. Each is a single deferred request in the trace. The timing is not modelled, and neither is the case where the element is missing when the request runs.
- `document.title` and `router.push` are effects. The router's current route is an input of `DismissViewer`, and the trace cannot change it.
- `File.get` from `src/utils/file` is not part of this model. It is an oracle argument of `Open` that returns a path and a directory flag.
- The `local`, `bookmark` and `rating` modules are not part of this model. Their contracts are assumed, not verified. `local/explorer/initialize`, `changeDirectory` and `local/viewer/loadFiles` are effects. The viewer's `loading` flag is an input. `rating/setRating` is a map upsert. `bookmark/setBookmarks` replaces the whole list. Bookmarks start empty and ratings start as an empty map.
- Vuex dispatches return promises. The actions here contain no await, so each runs to completion in order, and the model treats dispatch as synchronous.
- `vuex-persistedstate` is not modelled: no serialisation, storage or deep merge of a saved record that lacks fields. Only the choice of paths and a restore over a fresh store are modelled.
- Windows path separators (`path.win32`) are not modelled. Full Unicode `toUpperCase` is not modelled either: only ASCII letters are upper-cased, and no character expands to several.
- Actions.Open: requires a non-empty list. With an empty list the source calls `File.get(undefined)`, and the behaviour of that call is not visible.
- Actions.ChangeTitle: the title is an `Option`, where `None` stands for an absent payload field, which gets the default. An explicit JavaScript `null` would be stored as is; that value is not representable here. A dispatch with no payload object at all throws in the source, because the action destructures its payload; that case is not modelled.
- Actions.ShowMessage: the message is an `Option<string>`, with `None` for the initial `null`. Payloads of other types are not modelled.
- The root `setDirectory` and `setFullScreen` mutations are modelled in `Root.Apply`. No action in this core commits them; their callers sit outside it.
- The exported `Selector` constants for the directory and query inputs are not modelled. No action of this core focuses or selects them; only the explorer table's selector is used, by `dismissViewer`.

=== FILE: actions.dfy ===
/** The root store's actions. Each returns the trace it leaves: the commits it
    makes and the calls it performs, in order; the state afterwards is
    `Replay(s, trace)`. A dispatched sub-action contributes its own trace at
    the point of dispatch. */
module Actions {
  import opened Root
  import Settings

  /** What the file probe reports about a path. */
  datatype FileInfo = FileInfo(path: string, directory: bool)

  /** `changeRoute`: hands the route over to the router. */
  function ChangeRoute(name: string): (t: seq<Event>)
    ensures CommitFree(t) && Perform(Navigate(name)) in t
    ensures |t| == 1
    ensures forall e :: e in t ==> e == Perform(Navigate(name))
  {
    [Perform(Navigate(name))]
  }

  /** `focus`: a deferred focus request on a selector; no state changes. */
  function Focus(selector: string): (t: seq<Event>)
    ensures CommitFree(t) && Perform(FocusLater(selector)) in t
    ensures |t| == 1
    ensures forall e :: e in t ==> e == Perform(FocusLater(selector))
  {
    [Perform(FocusLater(selector))]
  }

  /** `select`: a deferred text selection on a selector; no state changes. */
  function Select(selector: string): (t: seq<Event>)
    ensures CommitFree(t) && Perform(SelectLater(selector)) in t
    ensures |t| == 1
    ensures forall e :: e in t ==> e == Perform(SelectLater(selector))
  {
    [Perform(SelectLater(selector))]
  }

  /** The window calls of a full-screen switch: full-screen set to `on` and the
      menu bar to the opposite, and nothing else. */
  predicate WindowSwitch(t: seq<Event>, on: bool) {
    && Before(t, Perform(SetWindowFullScreen(on)), Perform(SetMenuBarVisibility(!on)))
    && forall i :: 0 <= i < |t| ==>
         t[i] == Perform(SetWindowFullScreen(on)) || t[i] == Perform(SetMenuBarVisibility(!on))
  }

  /** `enterFullScreen`: the window goes full-screen and hides its menu bar;
      the store's own `fullScreen` flag is not committed. */
  function EnterFullScreen(): (t: seq<Event>)
    ensures CommitFree(t) && WindowSwitch(t, true)
  {
    var t := [Perform(SetWindowFullScreen(true)), Perform(SetMenuBarVisibility(false))];
    assert t[0] == Perform(SetWindowFullScreen(true)) && t[1] == Perform(SetMenuBarVisibility(false));
    t
  }

  /** `leaveFullScreen`: the window leaves full-screen and shows its menu bar;
      the store's own `fullScreen` flag is not committed. */
  function LeaveFullScreen(): (t: seq<Event>)
    ensures CommitFree(t) && WindowSwitch(t, false)
  {
    var t := [Perform(SetWindowFullScreen(false)), Perform(SetMenuBarVisibility(true))];
    assert t[0] == Perform(SetWindowFullScreen(false)) && t[1] == Perform(SetMenuBarVisibility(true));
    t
  }

  /** One `rating/setRating` commit with rating 1 per bookmark, in bookmark order. */
  function RatingCommits(bookmarks: seq<string>): (t: seq<Event>)
    ensures |t| == |bookmarks|
    ensures forall i :: 0 <= i < |t| ==> t[i] == Commit(SetRating(bookmarks[i], 1))
  {
    if |bookmarks| == 0 then []
    else [Commit(SetRating(bookmarks[0], 1))] + RatingCommits(bookmarks[1..])
  }

  /** The ratings the migration should leave: every bookmarked path rated 1,
      every other rated path as it was. */
  function Migrated(ratings: map<string, int>, bookmarks: seq<string>): map<string, int> {
    map k | k in ratings.Keys + (set b | b in bookmarks) :: if k in bookmarks then 1 else ratings[k]
  }

  lemma MigratedStep(ratings: map<string, int>, bookmarks: seq<string>)
    requires |bookmarks| > 0
    ensures Migrated(ratings[bookmarks[0] := 1], bookmarks[1..]) == Migrated(ratings, bookmarks)
  {
    var b := bookmarks[0];
    var rest := bookmarks[1..];
    assert forall k :: k in bookmarks <==> k == b || k in rest by {
      assert bookmarks == [b] + rest;
    }
    var lhs := Migrated(ratings[b := 1], rest);
    var rhs := Migrated(ratings, bookmarks);
    assert lhs.Keys == rhs.Keys;
  }

  /** Replaying the rating commits rates every bookmark 1, one after the other. */
  lemma {:induction false} ReplayRatings(s: AppState, bookmarks: seq<string>)
    ensures Replay(s, RatingCommits(bookmarks)) == s.(ratings := Migrated(s.ratings, bookmarks))
    decreases |bookmarks|
  {
    if |bookmarks| == 0 {
      assert Migrated(s.ratings, bookmarks) == s.ratings;
    } else {
      var first := Commit(SetRating(bookmarks[0], 1));
      var s1 := s.(ratings := s.ratings[bookmarks[0] := 1]);
      var rest := RatingCommits(bookmarks[1..]);
      assert RatingCommits(bookmarks) == [first] + rest;
      ReplayAppend(s, [first], rest);
      ReplayOne(s, first);
      assert Replay(s, [first]) == s1;
      ReplayRatings(s1, bookmarks[1..]);
      MigratedStep(s.ratings, bookmarks);
    }
  }

  /** `migrate`: rates every bookmark 1, then empties the bookmarks; it only commits. */
  function Migrate(s: AppState): (t: seq<Event>)
    ensures forall i :: 0 <= i < |t| ==> t[i].Commit?
    ensures Replay(s, t) == s.(ratings := Migrated(s.ratings, s.bookmarks), bookmarks := [])
  {
    var rated := RatingCommits(s.bookmarks);
    var cleared := [Commit(SetBookmarks([]))];
    ReplayAppend(s, rated, cleared);
    ReplayRatings(s, s.bookmarks);
    ReplayOne(Replay(s, rated), cleared[0]);
    rated + cleared
  }

  /** Key by key: bookmarked paths end with rating 1, whatever they had; other
      paths keep their rating, or their absence; the bookmarks are emptied and
      nothing else changes. */
  lemma MigrateRatesBookmarks(s: AppState, k: string)
    ensures Replay(s, Migrate(s)).bookmarks == []
    ensures k in s.bookmarks ==> k in Replay(s, Migrate(s)).ratings && Replay(s, Migrate(s)).ratings[k] == 1
    ensures k !in s.bookmarks ==> (k in Replay(s, Migrate(s)).ratings <==> k in s.ratings)
    ensures k !in s.bookmarks && k in s.ratings ==> Replay(s, Migrate(s)).ratings[k] == s.ratings[k]
    ensures Replay(s, Migrate(s)) == s.(ratings := Replay(s, Migrate(s)).ratings, bookmarks := [])
  {
  }

  /** Running the migration on its own result commits only the emptying of the
      already empty bookmarks, and changes nothing. */
  lemma MigrateIdempotent(s: AppState)
    ensures var s1 := Replay(s, Migrate(s));
      Migrate(s1) == [Commit(SetBookmarks([]))] && Replay(s1, Migrate(s1)) == s1
  {
    var s1 := Replay(s, Migrate(s));
    assert Migrated(s1.ratings, []) == s1.ratings;
  }

  /** Bookmarks `a.png`, `b.png` and no ratings become the ratings `a.png: 1, b.png: 1`. */
  lemma MigrateExample(s: AppState)
    requires s.bookmarks == ["a.png", "b.png"] && s.ratings == map[]
    ensures Replay(s, Migrate(s)).ratings == map["a.png" := 1, "b.png" := 1]
    ensures Replay(s, Migrate(s)).bookmarks == []
  {
    var m := Migrated(s.ratings, s.bookmarks);
    assert m.Keys == {"a.png", "b.png"};
  }

  /** `initialize`: the migration, then the explorer's initialisation. */
  function Initialize(s: AppState): (t: seq<Event>)
    ensures |t| > 0 && t[|t| - 1] == Perform(InitializeExplorer)
    ensures forall i :: 0 <= i < |t| - 1 ==> t[i].Commit?
    ensures Replay(s, t) == s.(ratings := Migrated(s.ratings, s.bookmarks), bookmarks := [])
  {
    var m := Migrate(s);
    var init := [Perform(InitializeExplorer)];
    ReplayAppend(s, m, init);
    ReplayOne(Replay(s, m), init[0]);
    m + init
  }

  /** A second `initialize` over an initialised store only re-initialises the explorer. */
  lemma InitializeAgain(s: AppState)
    ensures var s1 := Replay(s, Initialize(s));
      Initialize(s1) == [Commit(SetBookmarks([])), Perform(InitializeExplorer)] && Replay(s1, Initialize(s1)) == s1
  {
    var s1 := Replay(s, Initialize(s));
    MigrateIdempotent(s);
    assert Replay(s, Initialize(s)) == Replay(s, Migrate(s));
  }

  /** `openDirectory`: the explorer changes directory, then the router goes to
      the explorer screen; no commit, no validation. */
  function OpenDirectory(dirpath: string): (t: seq<Event>)
    ensures CommitFree(t)
    ensures Before(t, Perform(ChangeDirectory(dirpath)), Perform(Navigate(ExplorerRoute)))
    ensures |t| == 2
    ensures forall e :: e in t ==> e == Perform(ChangeDirectory(dirpath)) || e == Perform(Navigate(ExplorerRoute))
  {
    var t := [Perform(ChangeDirectory(dirpath))] + ChangeRoute(ExplorerRoute);
    assert t[0] == Perform(ChangeDirectory(dirpath)) && t[1] == Perform(Navigate(ExplorerRoute));
    t
  }

  /** `showViewer`: the viewer is told to load first, `viewing` flips second,
      and the window goes full-screen when, and only when, the preference asks
      for it. The store's own `fullScreen` flag is left as it was. */
  function ShowViewer(s: AppState, filepaths: seq<string>): (t: seq<Event>)
    ensures |t| >= 2 && t[0] == Perform(LoadFiles(filepaths)) && t[1] == Commit(SetViewing(true))
    ensures CommitFree(t[2..])
    ensures Replay(s, t) == s.(viewing := true)
    ensures Perform(SetWindowFullScreen(true)) in t <==> s.settings.fullScreen
    ensures s.settings.fullScreen ==> WindowSwitch(t[2..], true)
    ensures !s.settings.fullScreen ==> |t| == 2
  {
    var loaded := [Perform(LoadFiles(filepaths)), Commit(SetViewing(true))];
    ReplayTwo(s, loaded[0], loaded[1]);
    assert loaded == [loaded[0], loaded[1]];
    if Replay(s, loaded).settings.fullScreen then
      var t := loaded + EnterFullScreen();
      ReplayAppend(s, loaded, EnterFullScreen());
      ReplayCommitFree(Replay(s, loaded), EnterFullScreen());
      assert t[2..] == EnterFullScreen();
      assert t[2] == Perform(SetWindowFullScreen(true));
      t
    else
      assert loaded[2..] == [];
      loaded
  }

  /** `open`: exactly one path that the probe calls a directory opens that
      directory (under the path the probe returns) and leaves the state alone;
      anything else (several paths, or one file) goes to the viewer with the
      whole list, in order. Extensions play no part. */
  function Open(s: AppState, probe: string -> FileInfo, filepaths: seq<string>): (t: seq<Event>)
    requires |filepaths| > 0
    ensures |filepaths| == 1 && probe(filepaths[0]).directory ==>
      t == [Perform(ChangeDirectory(probe(filepaths[0]).path)), Perform(Navigate(ExplorerRoute))]
      && Replay(s, t) == s
    ensures !(|filepaths| == 1 && probe(filepaths[0]).directory) ==>
      |t| > 0 && t[0] == Perform(LoadFiles(filepaths)) && Replay(s, t) == s.(viewing := true)
      && forall i :: 0 <= i < |t| && t[i].Perform? ==> !t[i].effect.ChangeDirectory?
    ensures !(|filepaths| == 1 && probe(filepaths[0]).directory) ==> t == ShowViewer(s, filepaths)
  {
    var file := probe(filepaths[0]);
    if |filepaths| == 1 && file.directory then
      var t := OpenDirectory(file.path);
      ReplayCommitFree(s, t);
      t
    else
      var t := ShowViewer(s, filepaths);
      assert forall i :: 2 <= i < |t| ==> t[i] == t[2..][i - 2];
      t
  }

  /** Which files the viewer shows never depends on the accepted extensions. */
  lemma OpenIgnoresExtensions(s: AppState, probe: string -> FileInfo, filepaths: seq<string>, extensions: seq<string>)
    requires |filepaths| > 0
    ensures Open(s.(settings := s.settings.(extensions := extensions)), probe, filepaths) == Open(s, probe, filepaths)
  {
    var s' := s.(settings := s.settings.(extensions := extensions));
    var loaded := [Perform(LoadFiles(filepaths)), Commit(SetViewing(true))];
    ReplayTwo(s, loaded[0], loaded[1]);
    ReplayTwo(s', loaded[0], loaded[1]);
    assert loaded == [loaded[0], loaded[1]];
  }

  /** What a dismissal that is not blocked by loading leaves behind: only
      `viewing` drops; the only commit is that drop; when `leaveOn` the window
      first leaves full-screen and shows its menu bar, and otherwise nothing
      precedes the commit; when `focusOn` the explorer table is focused after
      the commit, and otherwise nothing follows it. */
  predicate Dismissed(s: AppState, t: seq<Event>, leaveOn: bool, focusOn: bool) {
    && Replay(s, t) == s.(viewing := false)
    && (forall i :: 0 <= i < |t| && t[i].Commit? ==> t[i] == Commit(SetViewing(false)))
    && (Perform(SetWindowFullScreen(false)) in t <==> leaveOn)
    && (Perform(FocusLater(ExplorerTable)) in t <==> focusOn)
    && (leaveOn ==> Before(t, Perform(SetWindowFullScreen(false)), Commit(SetViewing(false))))
    && (focusOn ==> Before(t, Commit(SetViewing(false)), Perform(FocusLater(ExplorerTable))))
    && (leaveOn ==> |t| >= 3 && WindowSwitch(t[..2], false) && t[2] == Commit(SetViewing(false))
                    && t[3..] == (if focusOn then [Perform(FocusLater(ExplorerTable))] else []))
    && (!leaveOn ==> |t| >= 1 && t[0] == Commit(SetViewing(false))
                     && t[1..] == (if focusOn then [Perform(FocusLater(ExplorerTable))] else []))
  }

  /** `dismissViewer`: nothing at all while the viewer is loading. Otherwise the
      window leaves full-screen when the preference is on or the platform is not
      macOS, then `viewing` drops, then the explorer table is focused when the
      current route is the explorer; nothing else happens. */
  function DismissViewer(env: Env, s: AppState, loading: bool, route: string): (t: seq<Event>)
    ensures loading ==> t == []
    ensures !loading ==> Dismissed(s, t, s.settings.fullScreen || !env.isDarwin, route == ExplorerRoute)
  {
    if loading then [] else
      var leaveOn := s.settings.fullScreen || !env.isDarwin;
      var focusOn := route == ExplorerRoute;
      DismissSteps(s, leaveOn, focusOn);
      (if leaveOn then LeaveFullScreen() else []) + [Commit(SetViewing(false))]
        + (if focusOn then Focus(ExplorerTable) else [])
  }

  /** The trace of a dismissal that is not blocked by loading: the optional
      window switch, the one commit, the optional focus request. */
  lemma DismissSteps(s: AppState, leaveOn: bool, focusOn: bool)
    ensures Dismissed(s, (if leaveOn then LeaveFullScreen() else []) + [Commit(SetViewing(false))]
                           + (if focusOn then Focus(ExplorerTable) else []), leaveOn, focusOn)
  {
    var w, c, f := Perform(SetWindowFullScreen(false)), Commit(SetViewing(false)), Perform(FocusLater(ExplorerTable));
    var menu := Perform(SetMenuBarVisibility(true));
    var leave := if leaveOn then LeaveFullScreen() else [];
    var focus := if focusOn then Focus(ExplorerTable) else [];
    var t := leave + [c] + focus;
    assert Replay(s, t) == s.(viewing := false) by {
      ReplayAppend(s, leave + [c], focus);
      ReplayAppend(s, leave, [c]);
      ReplayCommitFree(s, leave);
      ReplayOne(s, c);
      ReplayCommitFree(Apply(s, SetViewing(false)), focus);
    }
    if leaveOn && focusOn {
      assert t == [w, menu, c, f];
      assert t[0] == w && t[2] == c && t[3] == f;
      assert t[..2] == LeaveFullScreen() && t[3..] == [f];
    } else if leaveOn {
      assert t == [w, menu, c];
      assert t[0] == w && t[2] == c;
      assert t[..2] == LeaveFullScreen() && t[3..] == [];
    } else if focusOn {
      assert t == [c, f];
      assert t[0] == c && t[1] == f;
      assert t[1..] == [f];
    } else {
      assert t == [c];
      assert t[1..] == [];
    }
  }

  /** `changeTitle`: sets the document title, then mirrors the same value into
      `title`; without a title the product name is used. */
  function ChangeTitle(env: Env, s: AppState, title: Option<string>): (t: seq<Event>)
    ensures |t| == 2 && t[0].Perform? && t[0].effect.SetDocumentTitle?
    ensures t[1] == Commit(SetTitle(t[0].effect.title))
    ensures Replay(s, t) == s.(title := t[0].effect.title)
    ensures title.None? ==> Replay(s, t).title == env.productName
    ensures title.Some? ==> Replay(s, t).title == title.value
  {
    var value := if title.Some? then title.value else env.productName;
    var t := [Perform(SetDocumentTitle(value)), Commit(SetTitle(value))];
    ReplayTwo(s, t[0], t[1]);
    assert t == [t[0], t[1]];
    t
  }

  /** `showMessage`: overwrites the message; there is no queue. */
  function ShowMessage(s: AppState, message: Option<string>): (t: seq<Event>)
    ensures forall i :: 0 <= i < |t| ==> t[i].Commit?
    ensures Replay(s, t) == s.(message := message)
  {
    var t := [Commit(SetMessage(message))];
    ReplayOne(s, t[0]);
    t
  }

  /** The last message shown is the only one kept. */
  lemma ShowMessageLastWins(s: AppState, first: Option<string>, second: Option<string>)
    ensures var s1 := Replay(s, ShowMessage(s, first));
      Replay(s1, ShowMessage(s1, second)) == Replay(s, ShowMessage(s, second))
  {
  }

  /** The `titleBar` getter: a custom title bar on macOS outside full-screen. */
  function TitleBar(env: Env, s: AppState): bool {
    env.isDarwin && !s.fullScreen
  }

  /** The title bar follows the store's `fullScreen` flag and the platform only:
      never off macOS, and neither showing nor dismissing the viewer moves it,
      since neither commits `fullScreen`. */
  lemma TitleBarFollowsFlag(env: Env, s: AppState, on: bool, filepaths: seq<string>, loading: bool, route: string)
    ensures TitleBar(env, Apply(s, SetFullScreen(on))) <==> env.isDarwin && !on
    ensures !env.isDarwin ==> !TitleBar(env, s)
    ensures TitleBar(env, Replay(s, ShowViewer(s, filepaths))) == TitleBar(env, s)
    ensures TitleBar(env, Replay(s, DismissViewer(env, s, loading, route))) == TitleBar(env, s)
  {
  }

  /** Showing then dismissing the viewer (not loading) ends with `viewing`
      false and every other field as before, and a window the viewer made
      full-screen is taken out of full-screen again. */
  lemma ShowThenDismiss(env: Env, s: AppState, filepaths: seq<string>, route: string)
    ensures var s1 := Replay(s, ShowViewer(s, filepaths));
      Replay(s1, DismissViewer(env, s1, false, route)) == s.(viewing := false)
    ensures var s1 := Replay(s, ShowViewer(s, filepaths));
      Perform(SetWindowFullScreen(true)) in ShowViewer(s, filepaths) ==>
        Perform(SetWindowFullScreen(false)) in DismissViewer(env, s1, false, route)
  {
  }
}

=== FILE: ascii.dfy ===
/** ASCII upper-casing. It stands in for JavaScript's `toUpperCase` on the
    characters a file extension normally holds: `a`..`z` become `A`..`Z` and
    every other character is left alone. */
module Ascii {

  predicate IsLower(c: char) {
    'a' <= c <= 'z'
  }

  function UpperChar(c: char): char {
    if IsLower(c) then (c as int - 32) as char else c
  }

  /** The string with every ASCII lower-case letter upper-cased, position by position. */
  function ToUpper(s: string): (r: string)
    ensures |r| == |s|
    ensures forall i :: 0 <= i < |s| ==> r[i] == UpperChar(s[i])
  {
    seq(|s|, i requires 0 <= i < |s| => UpperChar(s[i]))
  }

  /** A string with no ASCII lower-case letter. */
  predicate IsUpper(s: string) {
    forall i :: 0 <= i < |s| ==> !IsLower(s[i])
  }

  /** Upper-casing never turns another character into `/` or `.`, nor those into anything else. */
  lemma UpperKeepsPunctuation(c: char)
    ensures UpperChar(c) == '/' <==> c == '/'
    ensures UpperChar(c) == '.' <==> c == '.'
  {
  }

  /** A string is left unchanged by upper-casing exactly when it has no lower-case letter. */
  lemma ToUpperFixes(s: string)
    ensures IsUpper(ToUpper(s))
    ensures ToUpper(s) == s <==> IsUpper(s)
  {
    if IsUpper(s) {
      assert forall i :: 0 <= i < |s| ==> ToUpper(s)[i] == s[i];
    } else {
      var i :| 0 <= i < |s| && IsLower(s[i]);
      assert ToUpper(s)[i] != s[i];
    }
  }

  lemma ToUpperSlice(s: string, i: int, j: int)
    requires 0 <= i <= j <= |s|
    ensures ToUpper(s[i..j]) == ToUpper(s)[i..j]
  {
  }

  lemma ToUpperConcat(a: string, b: string)
    ensures ToUpper(a + b) == ToUpper(a) + ToUpper(b)
  {
  }
}

=== FILE: persistence.dfy ===
/** The persisted part of the store: the plugin saves exactly `directory`,
    `bookmark`, `rating` and `settings`; at start-up they are laid over a fresh
    store, whose `title`, `message`, `fullScreen` and `viewing` keep their
    initial values. Serialisation itself is not modelled. */
module Persistence {
  import opened Root
  import Settings
  import Actions

  datatype Persisted = Persisted(
    directory: string,
    bookmarks: seq<string>,
    ratings: map<string, int>,
    settings: Settings.SettingsState)

  /** A fresh store: the product name as title, no message, windowed, browsing
      the home directory, default settings, no bookmarks and no ratings. */
  function Initial(env: Env): AppState {
    AppState(env.productName, None, false, false, env.home, Settings.Default(), [], map[])
  }

  function Persist(s: AppState): Persisted {
    Persisted(s.directory, s.bookmarks, s.ratings, s.settings)
  }

  function Rehydrate(env: Env, p: Persisted): AppState {
    Initial(env).(directory := p.directory, bookmarks := p.bookmarks, ratings := p.ratings, settings := p.settings)
  }

  /** Saving then restoring keeps the four persisted slices and resets the four
      transient fields to their start-up values. */
  lemma RehydrateRestores(env: Env, s: AppState)
    ensures var r := Rehydrate(env, Persist(s));
      && r.directory == s.directory && r.bookmarks == s.bookmarks
      && r.ratings == s.ratings && r.settings == s.settings
      && r.title == env.productName && r.message == None && !r.fullScreen && !r.viewing
  {
  }

  /** Restoring then saving gives back what was saved. */
  lemma PersistRoundTrip(env: Env, p: Persisted)
    ensures Persist(Rehydrate(env, p)) == p
  {
  }

  /** Two states save the same record exactly when they agree on the four persisted slices. */
  lemma PersistSeesFourSlices(s: AppState, t: AppState)
    ensures Persist(s) == Persist(t) <==>
      s.directory == t.directory && s.bookmarks == t.bookmarks && s.ratings == t.ratings && s.settings == t.settings
  {
  }

  /** Transient mutations never change what is saved. */
  lemma TransientNotPersisted(s: AppState, m: Mutation)
    requires Transient(m)
    ensures Persist(Apply(s, m)) == Persist(s)
  {
  }

  /** A restored store starts browsing, windowed, with no message. */
  lemma RestoredStartsBrowsing(env: Env, p: Persisted)
    ensures !Rehydrate(env, p).viewing && !Rehydrate(env, p).fullScreen && Rehydrate(env, p).message == None
    ensures Rehydrate(env, p) == Initial(env) <==>
      p == Persisted(env.home, [], map[], Settings.Default())
  {
  }

  /** Showing and dismissing the viewer, the title and the message touch only
      transient state: what would be saved stays the same. */
  lemma ViewActionsNotPersisted(env: Env, s: AppState, filepaths: seq<string>, loading: bool, route: string,
                                title: Option<string>, message: Option<string>)
    ensures Persist(Replay(s, Actions.ShowViewer(s, filepaths))) == Persist(s)
    ensures Persist(Replay(s, Actions.DismissViewer(env, s, loading, route))) == Persist(s)
    ensures Persist(Replay(s, Actions.ChangeTitle(env, s, title))) == Persist(s)
    ensures Persist(Replay(s, Actions.ShowMessage(s, message))) == Persist(s)
  {
  }
}

=== FILE: posix_path.dfy ===
/** Node's `path.extname` for POSIX paths: the extension of the last path
    segment, trailing slashes ignored, counted from the last `.` of that
    segment. A segment whose only dot leads it (`.png`), a segment without a
    dot and the segment `..` have no extension. */
module PosixPath {
  import opened Ascii

  /** Index of the last `c` among the first `n` characters of `s`, or -1 when there is none. */
  function LastIndexBefore(s: string, c: char, n: nat): (r: int)
    requires n <= |s|
    ensures -1 <= r < n
    ensures r >= 0 ==> s[r] == c
    ensures forall i :: r < i < n ==> s[i] != c
  {
    if n == 0 then -1
    else if s[n - 1] == c then n - 1
    else LastIndexBefore(s, c, n - 1)
  }

  /** How many of the first `n` characters of `p` remain once the trailing `/` characters are dropped. */
  function TrimmedLength(p: string, n: nat): (k: nat)
    requires n <= |p|
    ensures k <= n
    ensures k == 0 || p[k - 1] != '/'
    ensures forall i :: k <= i < n ==> p[i] == '/'
  {
    if n > 0 && p[n - 1] == '/' then TrimmedLength(p, n - 1) else n
  }

  /** The last segment of the path, trailing slashes ignored: the part Node's `basename` would return. */
  function LastSegment(p: string): (b: string)
    ensures '/' !in b
  {
    var n := TrimmedLength(p, |p|);
    var k := LastIndexBefore(p, '/', n);
    var b := p[k + 1..n];
    assert forall j :: 0 <= j < |b| ==> b[j] == p[k + 1 + j];
    b
  }

  /** Node's `path.extname` (POSIX flavour). */
  function Extname(p: string): string {
    SegmentExt(LastSegment(p))
  }

  /** The extension of one path segment: from its last dot to its end, unless
      that dot is the segment's first character or the segment is `..`. */
  function SegmentExt(b: string): string {
    var d := LastIndexBefore(b, '.', |b|);
    if d <= 0 || b == ".." then "" else b[d..]
  }

  /** The result of LastIndexBefore is the only index meeting its contract. */
  lemma LastIndexBeforeUnique(s: string, c: char, n: nat, r: int)
    requires -1 <= r < n <= |s|
    requires r >= 0 ==> s[r] == c
    requires forall i :: r < i < n ==> s[i] != c
    ensures LastIndexBefore(s, c, n) == r
  {
  }

  /** The result of TrimmedLength is the only length meeting its contract. */
  lemma TrimmedLengthUnique(p: string, n: nat, k: nat)
    requires k <= n <= |p|
    requires k == 0 || p[k - 1] != '/'
    requires forall i :: k <= i < n ==> p[i] == '/'
    ensures TrimmedLength(p, n) == k
  {
  }

  /** An extension is empty or a dot followed by text with no dot and no slash. */
  lemma ExtnameShape(p: string)
    ensures var e := Extname(p);
      e == [] || (e[0] == '.' && '.' !in e[1..] && '/' !in e)
  {
    var b := LastSegment(p);
    var d := LastIndexBefore(b, '.', |b|);
    if d > 0 && b != ".." {
      var e := b[d..];
      assert forall j :: 0 <= j < |e| ==> e[j] == b[d + j];
      assert forall j :: 0 <= j < |e| - 1 ==> e[1..][j] == b[d + 1 + j];
    }
  }

  /** Two strings with `c` at the same positions, among the first `n`, have the same last `c` there. */
  lemma SameMarks(s: string, t: string, c: char, n: nat)
    requires n <= |s| && n <= |t|
    requires forall i :: 0 <= i < n ==> (s[i] == c <==> t[i] == c)
    ensures LastIndexBefore(s, c, n) == LastIndexBefore(t, c, n)
  {
    LastIndexBeforeUnique(t, c, n, LastIndexBefore(s, c, n));
  }

  /** Upper-casing keeps every `/` and `.` where it is and makes no new ones. */
  lemma UpperMarks(s: string)
    ensures forall i :: 0 <= i < |s| ==> (ToUpper(s)[i] == '/' <==> s[i] == '/')
    ensures forall i :: 0 <= i < |s| ==> (ToUpper(s)[i] == '.' <==> s[i] == '.')
  {
    forall i | 0 <= i < |s|
      ensures ToUpper(s)[i] == '/' <==> s[i] == '/'
      ensures ToUpper(s)[i] == '.' <==> s[i] == '.'
    {
      UpperKeepsPunctuation(s[i]);
    }
  }

  lemma LastSegmentUpper(p: string)
    ensures LastSegment(ToUpper(p)) == ToUpper(LastSegment(p))
  {
    var u := ToUpper(p);
    UpperMarks(p);
    var n := TrimmedLength(p, |p|);
    TrimmedLengthUnique(u, |u|, n);
    SameMarks(p, u, '/', n);
    var k := LastIndexBefore(p, '/', n);
    ToUpperSlice(p, k + 1, n);
  }

  lemma SegmentExtUpper(b: string)
    ensures SegmentExt(ToUpper(b)) == ToUpper(SegmentExt(b))
  {
    var u := ToUpper(b);
    UpperMarks(b);
    SameMarks(b, u, '.', |b|);
    assert u == ".." <==> b == "..";
    var d := LastIndexBefore(b, '.', |b|);
    if d > 0 {
      ToUpperSlice(b, d, |b|);
    }
  }

  /** Taking the extension commutes with upper-casing. */
  lemma ExtnameUpper(p: string)
    ensures Extname(ToUpper(p)) == ToUpper(Extname(p))
  {
    LastSegmentUpper(p);
    SegmentExtUpper(LastSegment(p));
  }

  /** The last segment of a path made of a directory part ending in `/`, a
      slash-free name and trailing slashes is that name. */
  lemma SegmentOfComposed(dir: string, name: string, slashes: string)
    requires |dir| == 0 || dir[|dir| - 1] == '/'
    requires |name| > 0 && '/' !in name
    requires forall i :: 0 <= i < |slashes| ==> slashes[i] == '/'
    ensures LastSegment(dir + name + slashes) == name
  {
    var p := dir + name + slashes;
    var n := |dir| + |name|;
    assert p[n - 1] == name[|name| - 1];
    TrimmedLengthUnique(p, |p|, n);
    forall i | |dir| <= i < n
      ensures p[i] != '/'
    {
      assert p[i] == name[i - |dir|];
    }
    LastIndexBeforeUnique(p, '/', n, |dir| - 1);
    assert p[|dir|..n] == name;
  }

  /** The same without trailing slashes. */
  lemma SegmentOfJoined(dir: string, name: string)
    requires |dir| == 0 || dir[|dir| - 1] == '/'
    requires |name| > 0 && '/' !in name
    ensures LastSegment(dir + name) == name
  {
    SegmentOfComposed(dir, name, "");
    assert dir + name + "" == dir + name;
  }

  /** A segment without a dot has no extension. */
  lemma SegmentExtNoDot(b: string)
    requires '.' !in b
    ensures SegmentExt(b) == ""
  {
    LastIndexBeforeUnique(b, '.', |b|, -1);
  }

  /** A segment whose only dot leads it has no extension. */
  lemma SegmentExtLeadingDot(rest: string)
    requires '.' !in rest
    ensures SegmentExt("." + rest) == ""
  {
    var b := "." + rest;
    assert forall i :: 0 < i < |b| ==> b[i] == rest[i - 1];
    LastIndexBeforeUnique(b, '.', |b|, 0);
  }

  /** In `stem.ext` with a dot-free `ext`, the dot after the stem is the last one. */
  lemma LastDotOfName(stem: string, ext: string)
    requires '.' !in ext
    ensures var name := stem + "." + ext;
      LastIndexBefore(name, '.', |name|) == |stem| && name[|stem|..] == "." + ext
  {
    var name := stem + "." + ext;
    assert name[|stem|] == '.';
    forall i | |stem| < i < |name|
      ensures name[i] != '.'
    {
      assert name[i] == ext[i - |stem| - 1];
    }
    LastIndexBeforeUnique(name, '.', |name|, |stem|);
    assert name[|stem|..] == "." + ext;
  }

  /** `stem.ext` is a slash-free segment, and it is `..` only for the stem `.` with no extension. */
  lemma NameShape(stem: string, ext: string)
    requires |stem| > 0 && '/' !in stem && '/' !in ext
    ensures '/' !in stem + "." + ext
    ensures stem + "." + ext == ".." <==> stem == "." && ext == ""
  {
    var name := stem + "." + ext;
    forall i | 0 <= i < |name|
      ensures name[i] != '/'
    {
      if i < |stem| {
        assert name[i] == stem[i];
      } else if i > |stem| {
        assert name[i] == ext[i - |stem| - 1];
      }
    }
    if name == ".." {
      assert |stem| == 1 && name[0] == stem[0];
    }
  }

  /** The extension of the segment `stem.ext`, for a dot-free `ext`, is `.ext`. */
  lemma SegmentExtOfName(stem: string, ext: string)
    requires |stem| > 0 && '/' !in stem
    requires '/' !in ext && '.' !in ext
    requires !(stem == "." && ext == "")
    ensures '/' !in stem + "." + ext
    ensures SegmentExt(stem + "." + ext) == "." + ext
  {
    NameShape(stem, ext);
    LastDotOfName(stem, ext);
  }

  /** A path built as directory part, non-empty stem, a dot, a dot-free extension
      and trailing slashes has exactly that extension, as Node computes it. */
  lemma ExtnameOfComposed(dir: string, stem: string, ext: string, slashes: string)
    requires |dir| == 0 || dir[|dir| - 1] == '/'
    requires |stem| > 0 && '/' !in stem
    requires '/' !in ext && '.' !in ext
    requires !(stem == "." && ext == "")
    requires forall i :: 0 <= i < |slashes| ==> slashes[i] == '/'
    ensures Extname(dir + stem + "." + ext + slashes) == "." + ext
  {
    var name := stem + "." + ext;
    var p := dir + stem + "." + ext + slashes;
    assert p == dir + name + slashes;
    SegmentOfComposed(dir, name, slashes);
    ExtnameOfSegment(p, stem, ext);
  }

  /** A path whose last segment is `stem.ext`, for a dot-free `ext`, has the extension `.ext`. */
  lemma ExtnameOfSegment(p: string, stem: string, ext: string)
    requires |stem| > 0 && '/' !in stem
    requires '/' !in ext && '.' !in ext
    requires !(stem == "." && ext == "")
    requires LastSegment(p) == stem + "." + ext
    ensures Extname(p) == "." + ext
  {
    SegmentExtOfName(stem, ext);
  }

  /** The same for a bare file name. */
  lemma ExtnameOfName(stem: string, ext: string)
    requires |stem| > 0 && '/' !in stem
    requires '/' !in ext && '.' !in ext
    requires !(stem == "." && ext == "")
    ensures Extname(stem + "." + ext) == "." + ext
  {
    var name := stem + "." + ext;
    NameShape(stem, ext);
    SegmentOfJoined("", name);
    assert "" + name == name;
    ExtnameOfSegment(name, stem, ext);
  }

  /** A last segment with no dot has no extension (`x`, `photos.d/x`). */
  lemma ExtnameNoDot(dir: string, name: string)
    requires |dir| == 0 || dir[|dir| - 1] == '/'
    requires |name| > 0 && '/' !in name && '.' !in name
    ensures Extname(dir + name) == ""
  {
    SegmentOfJoined(dir, name);
    SegmentExtNoDot(name);
  }

  /** A last segment whose only dot leads it has no extension (`.png`). */
  lemma ExtnameLeadingDotOnly(dir: string, rest: string)
    requires |dir| == 0 || dir[|dir| - 1] == '/'
    requires '/' !in rest && '.' !in rest
    ensures Extname(dir + "." + rest) == ""
  {
    var name := "." + rest;
    var p := dir + "." + rest;
    assert p == dir + name;
    assert name == "." + "" + rest;
    NameShape(".", rest);
    SegmentOfJoined(dir, name);
    SegmentExtLeadingDot(rest);
  }

  /** The segment `..` has no extension. */
  lemma ExtnameDotDot(dir: string)
    requires |dir| == 0 || dir[|dir| - 1] == '/'
    ensures Extname(dir + "..") == ""
  {
    SegmentOfJoined(dir, "..");
  }
}

=== FILE: root.dfy ===
/** The root store's state, the mutations it accepts, and the trace an action
    leaves behind: the commits it makes and the calls it performs on its
    collaborators, in the order it makes them. The state after an action is
    its trace's commits replayed over the state before. */
module Root {
  import Settings

  datatype Option<T> = None | Some(value: T)

  /** Route name of the directory listing, and the CSS selector of its table,
      which the store focuses after the viewer is dismissed. */
  const ExplorerRoute: string := "explorer"
  const ExplorerTable: string := ".explorer-table"

  /** What the host gives the store: the platform, the product name from the
      package manifest and the user's home directory. */
  datatype Env = Env(isDarwin: bool, productName: string, home: string)

  /** The root state together with the slices of the bookmark, rating and
      settings modules the root actions read and write. */
  datatype AppState = AppState(
    title: string,
    message: Option<string>,
    fullScreen: bool,
    viewing: bool,
    directory: string,
    settings: Settings.SettingsState,
    bookmarks: seq<string>,
    ratings: map<string, int>)

  /** The root mutations, `rating/setRating`, `bookmark/setBookmarks` and the settings setters. */
  datatype Mutation =
    | SetTitle(title: string)
    | SetMessage(message: Option<string>)
    | SetFullScreen(fullScreen: bool)
    | SetViewing(viewing: bool)
    | SetDirectory(directory: string)
    | SetRating(filepath: string, rating: int)
    | SetBookmarks(bookmarks: seq<string>)
    | ChangeSettings(change: Settings.Mutation)

  /** Calls on collaborators the store cannot see: the explorer and viewer
      modules, the router, the browser window and the document. */
  datatype Effect =
    | InitializeExplorer
    | ChangeDirectory(dirpath: string)
    | LoadFiles(filepaths: seq<string>)
    | Navigate(name: string)
    | SetWindowFullScreen(on: bool)
    | SetMenuBarVisibility(visible: bool)
    | FocusLater(selector: string)
    | SelectLater(selector: string)
    | SetDocumentTitle(title: string)

  datatype Event = Commit(mutation: Mutation) | Perform(effect: Effect)

  /** The mutations of the four transient root fields, as opposed to the persisted slices. */
  predicate Transient(m: Mutation) {
    m.SetTitle? || m.SetMessage? || m.SetFullScreen? || m.SetViewing?
  }

  /** The slots of the state a mutation can write; each path of the ratings map is a slot of its own. */
  datatype Slot = Title | Message | FullScreen | Viewing | Directory | Rating(filepath: string) | Bookmarks | SettingsSlot

  /** The slot a mutation writes. */
  function Target(m: Mutation): Slot {
    match m
    case SetTitle(_) => Title
    case SetMessage(_) => Message
    case SetFullScreen(_) => FullScreen
    case SetViewing(_) => Viewing
    case SetDirectory(_) => Directory
    case SetRating(p, _) => Rating(p)
    case SetBookmarks(_) => Bookmarks
    case ChangeSettings(_) => SettingsSlot
  }

  /** Two states hold the same thing in a slot; for a rated path, the same
      presence in the map and the same rating. */
  predicate SameIn(s: AppState, t: AppState, slot: Slot) {
    match slot
    case Title => s.title == t.title
    case Message => s.message == t.message
    case FullScreen => s.fullScreen == t.fullScreen
    case Viewing => s.viewing == t.viewing
    case Directory => s.directory == t.directory
    case Rating(p) => (p in s.ratings <==> p in t.ratings) && (p in s.ratings ==> s.ratings[p] == t.ratings[p])
    case Bookmarks => s.bookmarks == t.bookmarks
    case SettingsSlot => s.settings == t.settings
  }

  /** Applies one mutation: its own slot gets the payload (`setRating` is an
      upsert of one path, a settings setter changes the settings as
      `Settings.Commit` says) and every other slot keeps what it held. In
      particular a transient mutation leaves the persisted slices alone, and
      any other mutation leaves the four transient fields alone. */
  function Apply(s: AppState, m: Mutation): (r: AppState)
    ensures forall slot :: slot != Target(m) ==> SameIn(r, s, slot)
    ensures m.SetTitle? ==> r.title == m.title
    ensures m.SetMessage? ==> r.message == m.message
    ensures m.SetFullScreen? ==> r.fullScreen == m.fullScreen
    ensures m.SetViewing? ==> r.viewing == m.viewing
    ensures m.SetDirectory? ==> r.directory == m.directory
    ensures m.SetRating? ==> m.filepath in r.ratings && r.ratings[m.filepath] == m.rating
    ensures m.SetBookmarks? ==> r.bookmarks == m.bookmarks
    ensures m.ChangeSettings? ==> r.settings == Settings.Commit(s.settings, m.change)
    ensures Transient(m) ==>
      r.directory == s.directory && r.settings == s.settings && r.bookmarks == s.bookmarks && r.ratings == s.ratings
    ensures !Transient(m) ==>
      r.title == s.title && r.message == s.message && r.fullScreen == s.fullScreen && r.viewing == s.viewing
  {
    match m
    case SetTitle(t) => s.(title := t)
    case SetMessage(msg) => s.(message := msg)
    case SetFullScreen(b) => s.(fullScreen := b)
    case SetViewing(b) => s.(viewing := b)
    case SetDirectory(d) => s.(directory := d)
    case SetRating(p, v) => s.(ratings := s.ratings[p := v])
    case SetBookmarks(bs) => s.(bookmarks := bs)
    case ChangeSettings(c) => s.(settings := Settings.Commit(s.settings, c))
  }

  /** The same setter twice: the second write wins (setRating: for the same path). */
  predicate SameSlot(m: Mutation, n: Mutation) {
    match (m, n)
    case (SetTitle(_), SetTitle(_)) => true
    case (SetMessage(_), SetMessage(_)) => true
    case (SetFullScreen(_), SetFullScreen(_)) => true
    case (SetViewing(_), SetViewing(_)) => true
    case (SetDirectory(_), SetDirectory(_)) => true
    case (SetRating(p, _), SetRating(q, _)) => p == q
    case (SetBookmarks(_), SetBookmarks(_)) => true
    case (ChangeSettings(c), ChangeSettings(d)) => Settings.Target(c) == Settings.Target(d)
    case _ => false
  }

  /** Every mutation replaces its slot wholesale: a later write to the same
      slot erases the earlier one, and rewriting what is there changes nothing. */
  lemma MutationsOverwrite(s: AppState, m: Mutation, n: Mutation)
    requires SameSlot(m, n)
    ensures Apply(Apply(s, m), n) == Apply(s, n)
    ensures Apply(Apply(s, m), m) == Apply(s, m)
  {
    if m.ChangeSettings? {
      Settings.SettersOverwrite(s.settings, m.change, n.change);
      Settings.SettersOverwrite(s.settings, m.change, m.change);
    }
  }

  function ApplyEvent(s: AppState, e: Event): AppState {
    match e
    case Commit(m) => Apply(s, m)
    case Perform(_) => s
  }

  /** The state after the trace: its commits applied in order, its calls ignored. */
  function Replay(s: AppState, t: seq<Event>): AppState {
    if |t| == 0 then s else ApplyEvent(Replay(s, t[..|t| - 1]), t[|t| - 1])
  }

  /** A trace that only calls out and never commits. */
  predicate CommitFree(t: seq<Event>) {
    forall i :: 0 <= i < |t| ==> t[i].Perform?
  }

  /** `a` happens strictly before `b` in the trace. */
  predicate Before(t: seq<Event>, a: Event, b: Event) {
    exists i, j :: 0 <= i < j < |t| && t[i] == a && t[j] == b
  }

  /** Replaying a concatenation is replaying its halves one after the other. */
  lemma {:induction false} ReplayAppend(s: AppState, a: seq<Event>, b: seq<Event>)
    ensures Replay(s, a + b) == Replay(Replay(s, a), b)
    decreases |b|
  {
    if |b| == 0 {
      assert a + b == a;
    } else {
      assert (a + b)[..|a + b| - 1] == a + b[..|b| - 1];
      assert (a + b)[|a + b| - 1] == b[|b| - 1];
      ReplayAppend(s, a, b[..|b| - 1]);
    }
  }

  /** Calls alone leave the state as it was. */
  lemma {:induction false} ReplayCommitFree(s: AppState, t: seq<Event>)
    requires CommitFree(t)
    ensures Replay(s, t) == s
    decreases |t|
  {
    if |t| > 0 {
      ReplayCommitFree(s, t[..|t| - 1]);
    }
  }

  lemma ReplayOne(s: AppState, e: Event)
    ensures Replay(s, [e]) == ApplyEvent(s, e)
  {
    assert [e][..0] == [];
  }

  lemma ReplayTwo(s: AppState, e: Event, f: Event)
    ensures Replay(s, [e, f]) == ApplyEvent(ApplyEvent(s, e), f)
  {
    assert [e, f][..1] == [e];
    ReplayOne(s, e);
  }
}

=== FILE: settings.dfy ===
/** The settings store: five user preferences, their defaults, the five
    whole-field setters and the "may this file be viewed" predicate. */
module Settings {
  import opened Ascii
  import opened PosixPath

  /** The extensions a fresh install accepts, upper-case and without the dot. */
  const DefaultExtensions: seq<string> := ["JPEG", "JPG", "PNG", "GIF", "WEBP", "BMP"]

  datatype SettingsState = SettingsState(
    darkTheme: bool,
    fullScreen: bool,
    recursive: bool,
    imageStretched: bool,
    extensions: seq<string>)

  function Default(): SettingsState {
    SettingsState(false, false, false, false, DefaultExtensions)
  }

  /** The store's mutations; each carries the new value of one field. */
  datatype Mutation =
    | SetDarkTheme(darkTheme: bool)
    | SetFullScreen(fullScreen: bool)
    | SetRecursive(recursive: bool)
    | SetImageStretched(imageStretched: bool)
    | SetExtensions(extensions: seq<string>)

  /** Names of the fields, and their values, so that a setter's frame can be stated field by field. */
  datatype Field = DarkTheme | FullScreen | Recursive | ImageStretched | Extensions

  datatype Value = Flag(on: bool) | Names(names: seq<string>)

  function Get(s: SettingsState, f: Field): Value {
    match f
    case DarkTheme => Flag(s.darkTheme)
    case FullScreen => Flag(s.fullScreen)
    case Recursive => Flag(s.recursive)
    case ImageStretched => Flag(s.imageStretched)
    case Extensions => Names(s.extensions)
  }

  /** The field a mutation writes. */
  function Target(m: Mutation): Field {
    match m
    case SetDarkTheme(_) => DarkTheme
    case SetFullScreen(_) => FullScreen
    case SetRecursive(_) => Recursive
    case SetImageStretched(_) => ImageStretched
    case SetExtensions(_) => Extensions
  }

  /** The value a mutation writes. */
  function Payload(m: Mutation): Value {
    match m
    case SetDarkTheme(b) => Flag(b)
    case SetFullScreen(b) => Flag(b)
    case SetRecursive(b) => Flag(b)
    case SetImageStretched(b) => Flag(b)
    case SetExtensions(xs) => Names(xs)
  }

  /** Applies one setter: its own field gets the payload, wholesale; the other four keep their values. */
  function Commit(s: SettingsState, m: Mutation): (r: SettingsState)
    ensures forall f :: Get(r, f) == (if f == Target(m) then Payload(m) else Get(s, f))
  {
    match m
    case SetDarkTheme(b) => s.(darkTheme := b)
    case SetFullScreen(b) => s.(fullScreen := b)
    case SetRecursive(b) => s.(recursive := b)
    case SetImageStretched(b) => s.(imageStretched := b)
    case SetExtensions(xs) => s.(extensions := xs)
  }

  /** A state is determined by its five fields. */
  lemma FieldsDetermineState(s: SettingsState, t: SettingsState)
    requires forall f :: Get(s, f) == Get(t, f)
    ensures s == t
  {
    assert Get(s, DarkTheme) == Get(t, DarkTheme);
    assert Get(s, FullScreen) == Get(t, FullScreen);
    assert Get(s, Recursive) == Get(t, Recursive);
    assert Get(s, ImageStretched) == Get(t, ImageStretched);
    assert Get(s, Extensions) == Get(t, Extensions);
  }

  /** A setter is a no-op exactly when its field already holds the payload;
      a second write to the same field replaces the first; writes to
      different fields commute. */
  lemma SettersOverwrite(s: SettingsState, m: Mutation, n: Mutation)
    ensures Commit(s, m) == s <==> Get(s, Target(m)) == Payload(m)
    ensures Target(m) == Target(n) ==> Commit(Commit(s, m), n) == Commit(s, n)
    ensures Target(m) != Target(n) ==> Commit(Commit(s, m), n) == Commit(Commit(s, n), m)
  {
    assert Commit(s, m) == s <==> Get(s, Target(m)) == Payload(m) by {
      if Get(s, Target(m)) == Payload(m) {
        FieldsDetermineState(Commit(s, m), s);
      }
    }
    if Target(m) == Target(n) {
      FieldsDetermineState(Commit(Commit(s, m), n), Commit(s, n));
    } else {
      FieldsDetermineState(Commit(Commit(s, m), n), Commit(Commit(s, n), m));
    }
  }

  /** The upper-cased extension of `filepath` must be listed, without its dot;
      a path with no extension is never available. */
  function IsAvailableFile(s: SettingsState, filepath: string): bool {
    var ext := ToUpper(Extname(filepath));
    if ext == "" then false else ext[1..] in s.extensions
  }

  /** The predicate in one line: there is an extension, and its text after the
      dot, upper-cased, is an entry of the list. */
  lemma AvailableIffListed(s: SettingsState, filepath: string)
    ensures IsAvailableFile(s, filepath) <==>
      Extname(filepath) != "" && ToUpper(Extname(filepath)[1..]) in s.extensions
  {
    var e := Extname(filepath);
    if e != "" {
      ToUpperSlice(e, 1, |e|);
      assert e[1..|e|] == e[1..];
      assert ToUpper(e)[1..|e|] == ToUpper(e)[1..];
    }
  }

  /** Whatever the list holds, a path without an extension is not available. */
  lemma NoExtensionNotAvailable(s: SettingsState, filepath: string)
    requires Extname(filepath) == ""
    ensures !IsAvailableFile(s, filepath)
  {
  }

  /** The answer depends only on the upper-cased path: `x.png` and `x.PNG` are judged alike. */
  lemma CaseInsensitive(s: SettingsState, p: string, q: string)
    requires ToUpper(p) == ToUpper(q)
    ensures IsAvailableFile(s, p) == IsAvailableFile(s, q)
  {
    ExtnameUpper(p);
    ExtnameUpper(q);
  }

  /** A path whose extension is `.ext` is available exactly when `ext`, upper-cased, is listed. */
  lemma AvailableByExtension(s: SettingsState, p: string, ext: string)
    requires Extname(p) == "." + ext
    ensures IsAvailableFile(s, p) <==> ToUpper(ext) in s.extensions
  {
    ToUpperConcat(".", ext);
    assert ToUpper(".") == ".";
    assert (ToUpper(".") + ToUpper(ext))[1..] == ToUpper(ext);
  }

  /** For a path `dir/stem.ext` (possibly with trailing slashes) only the text
      after the last dot decides, upper-cased and looked up as it stands. */
  lemma LastDotDecides(s: SettingsState, dir: string, stem: string, ext: string, slashes: string)
    requires |dir| == 0 || dir[|dir| - 1] == '/'
    requires |stem| > 0 && '/' !in stem
    requires '/' !in ext && '.' !in ext
    requires !(stem == "." && ext == "")
    requires forall i :: 0 <= i < |slashes| ==> slashes[i] == '/'
    ensures IsAvailableFile(s, dir + stem + "." + ext + slashes) <==> ToUpper(ext) in s.extensions
  {
    ExtnameOfComposed(dir, stem, ext, slashes);
    AvailableByExtension(s, dir + stem + "." + ext + slashes, ext);
  }

  /** Only the letter case of the extension differs (`stem.png`, `stem.PNG`):
      the answer is the same for every list. */
  lemma ExtensionCaseIgnored(s: SettingsState, stem: string, ext: string, other: string)
    requires ToUpper(ext) == ToUpper(other)
    ensures IsAvailableFile(s, stem + "." + ext) == IsAvailableFile(s, stem + "." + other)
  {
    ToUpperConcat(stem + ".", ext);
    ToUpperConcat(stem + ".", other);
    CaseInsensitive(s, stem + "." + ext, stem + "." + other);
  }

  /** The list is matched as it stands: an empty list admits nothing, and an
      entry holding a lower-case letter never matches, so adding one changes no answer. */
  lemma ListNotNormalised(s: SettingsState, filepath: string, entry: string)
    requires !IsUpper(entry)
    ensures s.extensions == [] ==> !IsAvailableFile(s, filepath)
    ensures IsAvailableFile(s.(extensions := s.extensions + [entry]), filepath) == IsAvailableFile(s, filepath)
  {
    var ext := ToUpper(Extname(filepath));
    ToUpperFixes(Extname(filepath));
    if ext != "" {
      assert IsUpper(ext[1..]);
      assert ext[1..] != entry;
    }
  }

  /** For a bare file name `stem.ext` only the text after the last dot decides. */
  lemma NameDecides(s: SettingsState, stem: string, ext: string)
    requires |stem| > 0 && '/' !in stem
    requires '/' !in ext && '.' !in ext
    requires !(stem == "." && ext == "")
    ensures IsAvailableFile(s, stem + "." + ext) <==> ToUpper(ext) in s.extensions
  {
    ExtnameOfName(stem, ext);
    AvailableByExtension(s, stem + "." + ext, ext);
  }

  /** With the list `PNG`, `JPG`: `png` and `PNG` upper-case to a listed entry, `gif` does not. */
  lemma PngJpgListed(s: SettingsState)
    requires s.extensions == ["PNG", "JPG"]
    ensures ToUpper("png") in s.extensions && ToUpper("PNG") in s.extensions
    ensures ToUpper("gif") !in s.extensions
  {
    assert ToUpper("png") == "PNG";
    assert ToUpper("PNG") == "PNG";
    assert ToUpper("gif") == "GIF";
  }

  /** With the list `PNG`, `JPG`: `x.png` and `x.PNG` are accepted, `x.gif` is
      refused and `x.gif.png` is accepted, for any file name `x`. */
  lemma PngJpgExamples(s: SettingsState, x: string)
    requires s.extensions == ["PNG", "JPG"]
    requires |x| > 0 && '/' !in x && '.' !in x
    ensures IsAvailableFile(s, x + "." + "png")
    ensures IsAvailableFile(s, x + "." + "PNG")
    ensures !IsAvailableFile(s, x + "." + "gif")
    ensures IsAvailableFile(s, x + "." + "gif" + "." + "png")
  {
    PngJpgListed(s);
    NameDecides(s, x, "png");
    NameDecides(s, x, "PNG");
    NameDecides(s, x, "gif");
    NameShape(x, "gif");
    NameDecides(s, x + "." + "gif", "png");
  }

  /** Whatever the list: a name without a dot (`x`) and a name whose only dot
      leads it (`.png`) are refused. */
  lemma NoExtensionExamples(s: SettingsState, x: string, ext: string)
    requires |x| > 0 && '/' !in x && '.' !in x
    requires '/' !in ext && '.' !in ext
    ensures !IsAvailableFile(s, x)
    ensures !IsAvailableFile(s, "." + ext)
  {
    ExtnameNoDot("", x);
    assert "" + x == x;
    ExtnameLeadingDotOnly("", ext);
    assert "" + "." + ext == "." + ext;
  }

  /** Out of the box every preference is off and each standard image
      extension is accepted after any file name, in any letter case, since
      every default entry is upper-case. */
  lemma DefaultsAcceptImages(e: string, x: string)
    requires e in DefaultExtensions
    requires |x| > 0 && '/' !in x && '.' !in x
    ensures !Default().darkTheme && !Default().fullScreen && !Default().recursive && !Default().imageStretched
    ensures IsUpper(e)
    ensures IsAvailableFile(Default(), x + "." + e)
    ensures forall lower :: ToUpper(lower) == e ==> IsAvailableFile(Default(), x + "." + lower)
  {
    assert IsUpper(e) && '/' !in e && '.' !in e;
    ToUpperFixes(e);
    NameDecides(Default(), x, e);
    forall lower | ToUpper(lower) == e
      ensures IsAvailableFile(Default(), x + "." + lower)
    {
      ToUpperConcat(x + ".", lower);
      ToUpperConcat(x + ".", e);
      CaseInsensitive(Default(), x + "." + lower, x + "." + e);
    }
  }
}
